=== FILE: README.md ===
# Task store record logic, in Dafny

A model of the record logic of a small to-do command-line tool written in Go.
The tool keeps its tasks in a CSV file, one record per task:
`id, description, created_at, is_complete`. Each command locks the file and
decodes every record. Then `complete` and `delete` rewrite the whole file,
`add` appends one record after the ones it read, and `list` only prints.
This model starts from the decoded records and ends with the records in the
file afterwards or, for `list`, with the tasks it prints:

- `add` gives the new task the ID of the **last** record plus one, or 1 when
  the file is empty. It then appends `[Itoa(id), description, created_at,
  "false"]`.
- `list` prints every task, or only the unfinished ones when "show all" is not
  set. A task is finished when its fourth field parses as true under Go's
  `strconv.ParseBool`. File order is kept.
- `complete <id>` sets the fourth field to `"true"` in the first record whose
  canonical ID `Itoa(Atoi(field))` equals the argument.
- `delete <id>` drops every record whose canonical ID equals the argument.

Files:

- `strconv.dfy` (module `Strconv`) models the parts of Go's `strconv` the tool
  uses: `Atoi` (with its syntax error, and with the error dropped the way the
  tool drops it), `Itoa`, `ParseBool` and `FormatBool`. Integers are
  unbounded. Its lemmas show that `Itoa(Atoi(s)) == s` holds exactly for the
  canonical spellings. So an argument such as `"01"` never matches a record.
- `wrappers.dfy` (module `Wrappers`) holds the `Option` type the parsers and
  searches return.
- `sequences.dfy` (module `Sequences`) defines an order-preserving `Filter`,
  with lemmas about concatenation, membership, idempotence and order.
- `store.dfy` (module `TaskStore`) holds records, tasks and the four commands
  as functions. The methods `ListTasks`, `CompleteTask` and `DeleteTask` follow
  the program's loops and are proved equal to those functions.
- `store_properties.dfy` (module `TaskStoreProperties`) relates the commands
  to one another. It proves idempotence, "no match changes nothing", order
  preservation, and how records with unparseable IDs behave. It also proves
  that `add`, `complete` and `delete` keep IDs strictly increasing in file
  order, so IDs stay unique and `delete` of an existing ID removes exactly
  one record.

Two behaviours of the code are easy to miss, and the model follows them:

- IDs are not compared as exact strings. `complete` and `delete` turn the
  stored field into a number and back, and compare the result with the
  argument (main.go:180-181, 208-209). A stored `"+1"` or `"007"`
  therefore answers to `"1"` or `"7"`, and a stored ID that does not parse
  answers to `"0"` (`StoredSpellingsMatch`, `PaddedIdMatches`,
  `UnparseableIdIsZero`).
- A record with too few fields is not read with empty or zero values. Go
  panics with an index out of range. In `list` this happens on any such
  record (main.go:151-154); in `complete` only on the matched record
  (main.go:182). The model returns `IndexOutOfRange` in both cases.

## Model

| member | source | states |
|---|---|---|
| Strconv.Digits | main.go:122 | `Itoa`'s digits for a natural number: a non-empty string of decimal digits that starts with '0' only for 0 |
| Strconv.DigitsValueOfDigits | main.go:122 | reading `Itoa`'s digits back as a decimal number gives the number that was printed |
| Strconv.ParseInt | main.go:105 | `Atoi` with its error: succeeds exactly on an optional '+' or '-' followed by at least one ASCII digit; the result is non-positive after '-' and non-negative otherwise |
| Strconv.Atoi | main.go:151 | `id, _ := strconv.Atoi(s)`: 0 for every string that is not an integer literal, otherwise the parsed value (on unbounded integers; see Left out) |
| Strconv.DigitsValueLeadingZero | main.go:105 | a leading zero does not change the value of a digit string |
| Strconv.AtoiPadding | main.go:105 | `Atoi` reads "+d", "0d" as it reads "d", and "-d" as its negation: "+7", "07", "007" are all 7 |
| Strconv.Itoa | main.go:122 | `strconv.Itoa` always prints a canonical spelling, with a '-' exactly for negative numbers; `ParseItoa` makes it the inverse of `Atoi`, `ItoaImage` shows its outputs are exactly the canonical strings, and `ItoaInjective` that distinct numbers print differently |
| Strconv.ParseItoa | main.go:122 | round trip: `Atoi(Itoa(n)) == n`, with no parse error, for every integer |
| Strconv.ItoaCanonical | main.go:181 | `Itoa` never produces a leading zero, a "-0" or a '+' (a named corollary of `Itoa`'s contract) |
| Strconv.AtoiCanonical | main.go:181 | the other round trip: `Itoa(Atoi(s)) == s` for every canonical string |
| Strconv.DigitsOfValue | main.go:180-181 | printing the value of a canonical digit string gives the same string back |
| Strconv.ItoaImage | main.go:181 | a string is some `Itoa(n)` if and only if it is canonical |
| Strconv.ItoaInjective | main.go:181 | `Itoa(a) == Itoa(b)` if and only if `a == b` |
| Strconv.LeadingZeroNeverPrinted | main.go:181 | no integer prints as a digit string with a leading zero such as "01" |
| Strconv.FormatBool | main.go:125 | `ParseBool(FormatBool(b)) == b`: the stored "false" reads back as false |
| Strconv.ParseBool | main.go:154 | Go's six spellings per value: true for "1", "t", "T", "TRUE", "true", "True"; false for "0", "f", "F", "FALSE", "false", "False"; an error for every other string |
| Strconv.ParsesTrue | main.go:154 | `b, _ := strconv.ParseBool(s)`: true exactly for the six spellings of true, so a field that does not parse reads as false |
| TaskStore.CanonicalId | main.go:180-181 | the spelling an argument is compared against is always canonical: no leading zero, no '+', no "-0" |
| TaskStore.CanonicalIdParses | main.go:180-181 | that spelling parses back to the record's ID |
| TaskStore.Matches | main.go:181 | the comparison `strconv.Itoa(id) == taskID`: only a canonical argument can match (the exact condition is `MatchesIff`) |
| TaskStore.NextId | main.go:102-109 | the new ID is 1 for an empty file or an unparseable last ID; otherwise the last record's parsed ID plus one |
| TaskStore.NewRecord | main.go:111-125 | the added record has four fields; its ID field is a canonical spelling that parses back to the ID, so it is the one `Itoa` prints (`ItoaImage`); the completion field is "false" and parses as false |
| TaskStore.ReadBack | main.go:100 | what the next command decodes: the file's records when they all have the first record's field count, otherwise none (the reader's field-count error is ignored) |
| TaskStore.AddReadBack | main.go:100-126 | the file `add` leaves reads back in full exactly when every earlier record has four fields, like the appended one; otherwise the next command sees no records |
| TaskStore.Add | main.go:111-126 | exactly one record is appended; all earlier records are unchanged; the new one has a canonical ID field reading as the next ID, the description, the time and "false" |
| TaskStore.ToTask | main.go:151-154 | a record's task: the ID as `Atoi` reads it (0 when it does not parse), description and time as stored, complete exactly for `ParseBool`'s spellings of true |
| TaskStore.Visible | main.go:156-158 | a record is printed when "show all" is set or its task is not complete, that is when its fourth field is not a spelling of true |
| TaskStore.Tasks | main.go:151-154 | one task per record, in order, read from the record's fields |
| TaskStore.Shown | main.go:150-158 | with "show all" every record's task in file order; otherwise no completed task appears |
| TaskStore.List | main.go:150-158 | `list` panics exactly when some record has fewer than four fields; otherwise it returns the shown tasks |
| TaskStore.ListTasks | main.go:150-165 | the program's loop, with its early `continue`, computes `List` |
| TaskStore.ShownSnoc | main.go:156-163 | one more record adds its task at the end when visible and nothing otherwise |
| TaskStore.FirstMatchFrom | main.go:179-184 | finds the first record at or after a position whose canonical ID equals the argument, or reports that none does |
| TaskStore.Complete | main.go:179-185 | the length is preserved; only the first matching record changes, and only its fourth field, which becomes "true"; a panic happens exactly when that record has fewer than four fields |
| TaskStore.CompleteAtFirstMatch | main.go:181-183 | once the first match is known, the result is that one record marked, or the panic |
| TaskStore.CompleteTask | main.go:177-191 | the program's scan-mark-break loop computes `Complete` |
| TaskStore.Delete | main.go:205-212 | the result is again a list of decoded records, no longer than the input |
| TaskStore.DeleteMembers | main.go:207-211 | a record is in the result if and only if it was in the input and does not match |
| TaskStore.DeleteTask | main.go:203-218 | the program's copy-the-others loop computes `Delete` |
| TaskStoreProperties.MatchesIff | main.go:180-181 | an argument matches a record if and only if it is canonical and denotes the record's parsed ID |
| TaskStoreProperties.PaddedIdMatches | main.go:180-181 | a stored ID written with a '+' or a leading zero answers to the same arguments as its bare digits |
| TaskStoreProperties.StoredSpellingsMatch | main.go:180-181 | stored IDs "+1", "007" and "x" are selected by the arguments "1", "7" and "0" |
| TaskStoreProperties.UnparseableIdIsZero | main.go:151-154 | a record whose ID does not parse counts as ID 0: "0" matches it, `delete "0"` removes it, and `list` still shows it with ID 0 |
| TaskStoreProperties.DeleteNoMatch | main.go:207-211 | with no matching record, `delete` gives the records back unchanged |
| TaskStoreProperties.CompleteNoMatch | main.go:179-185 | with no matching record, `complete` gives the records back unchanged |
| TaskStoreProperties.NonCanonicalArgumentIsNoop | main.go:180-181 | an argument that `Itoa` cannot produce matches nothing; `complete` and `delete` change nothing |
| TaskStoreProperties.LeadingZeroArgumentIsNoop | main.go:208-209 | an argument with a leading zero such as "01" leaves the records unchanged under `complete` and `delete` |
| TaskStoreProperties.DeleteConcat | main.go:207-211 | deleting from a concatenation concatenates the deletions, so the kept records keep their order |
| TaskStoreProperties.DeleteOne | main.go:209-210 | a single record is dropped exactly when it matches |
| TaskStoreProperties.DeleteIdempotent | main.go:205-212 | deleting twice with the same argument equals deleting once |
| TaskStoreProperties.CompleteKeepsIds | main.go:182 | `complete` keeps every ID field and record length, and so keeps which record is the first match |
| TaskStoreProperties.CompleteIdempotent | main.go:179-185 | completing twice with the same argument equals completing once |
| TaskStoreProperties.CompletedTaskIsHidden | main.go:154-158 | after `complete`, the marked task is finished and is absent from the default listing |
| TaskStoreProperties.NextIdAfterAdd | main.go:100-109 | the records after `add` give the next ID one larger; a second `add` reading the file gets that ID when every earlier record has four fields, and 1 otherwise |
| TaskStoreProperties.NextIdLastRecordOnly | main.go:103-106 | the next ID depends only on the last record, not on the largest ID |
| TaskStoreProperties.NextIdFollowsLastNotLargest | main.go:103-106 | with IDs 5 then 2 in file order the next ID is 3 |
| TaskStoreProperties.ShownConcat | main.go:150-158 | listing a concatenation concatenates the listings, so file order is kept |
| TaskStoreProperties.ShownMembers | main.go:156-163 | every visible record's task appears in the listing |
| TaskStoreProperties.ShownOne | main.go:156-163 | a single record is listed exactly when it is visible |
| TaskStoreProperties.ListAfterAdd | main.go:111-126 | listing the records after `add` gives the earlier listing followed by the new task: its ID, description and time, not complete |
| TaskStoreProperties.AddedTaskIsListed | main.go:141-158 | the next `list` reading the file ends with the new task when every earlier record has four fields, and prints no task otherwise |
| TaskStoreProperties.AtMostOneMatch | main.go:180-181 | with strictly increasing IDs, at most one record matches any argument |
| TaskStoreProperties.NextIdIsFresh | main.go:102-109 | with strictly increasing IDs, the next ID is larger than every stored ID |
| TaskStoreProperties.AddKeepsIdsIncreasing | main.go:102-126 | `add` keeps IDs strictly increasing |
| TaskStoreProperties.DeleteKeepsIdsIncreasing | main.go:205-212 | `delete` keeps IDs strictly increasing |
| TaskStoreProperties.CompleteKeepsIdsIncreasing | main.go:179-185 | whenever `complete` does not panic, it keeps IDs strictly increasing |
| TaskStoreProperties.DeleteRemovesExactlyOne | main.go:205-212 | with strictly increasing IDs, deleting a present ID removes exactly that record and keeps the rest in order |

## Left out

- Command wiring with cobra, argument-count checks and the exit code (main.go:25-70). This is command-line glue.
- Opening the file, `flock` locking and unlocking, truncate and seek (main.go:72-89, 187-188, 214-215). These are operating-system I/O and inter-process locking. Each command is modelled as one step from the decoded records to the file's records afterwards. A following command sees them through `ReadBack`; two serialised `add`s are covered by `NextIdAfterAdd`. The data loss possible between truncate and rewrite cannot be expressed here.
- CSV encoding and decoding, done by Go's `encoding/csv`. That library is not part of this model. The model takes the decoded records as input. It assumes only what the decoder guarantees: every record has at least one field (`Decoded`).
- Read errors from `ReadAll` other than a field-count mismatch, such as a bare quote in an unquoted field. Each of these also makes the program continue with no records (main.go:100, 141, 178, 204). The field-count case is modelled by `ReadBack`.
- The CSV writer and reader are taken to give back the same strings for records with equal field counts. Line-ending normalisation is not modelled: a "\r\n" inside a field reads back as "\n".
- Write errors from the CSV writer (main.go:121-128, 191, 218).
- `time.Now`, RFC 3339 formatting and parsing, and the relative-time text (main.go:114, 124, 153, 161). These need the clock and libraries. The creation time is an opaque string: `Add` takes it as a parameter, and `list` keeps the stored text.
- Table rendering with `tabwriter` and the confirmation messages (main.go:143-148, 160-166, 129, 192, 219). These are presentation only. When `list` panics nothing is printed, because `tabwriter` holds every line until the flush at main.go:166 and the panic skips it.
- NextId: uses unbounded integers. Go's `newID++` wraps around at the largest 64-bit integer, and that is not modelled.
- Strconv.Atoi: uses unbounded integers. Go clamps an out-of-range literal to the 64-bit limits and reports an error that the tool ignores. The model returns the exact value instead.
- Strconv.Atoi: for input of 19 bytes or more, Go stops with the clamped value and a range error as soon as the digit prefix goes past the unsigned 64-bit range, before it reads the rest. So `"99999999999999999999x"` reads as the largest 64-bit integer in Go. The model finds the syntax error and reads 0. This follows from the unbounded integers above.

=== FILE: sequences.dfy ===
/**
 Order-preserving filtering of a sequence, the shape shared by `delete`
 (keep the records that do not match) and by the `list` loop (skip the
 completed tasks).
 */
module Sequences {

  /** The elements of `s` that satisfy `keep`, in their original order. */
  function Filter<T>(s: seq<T>, keep: T -> bool): (t: seq<T>)
    ensures |t| <= |s|
    ensures forall i :: 0 <= i < |t| ==> t[i] in s && keep(t[i])
  {
    if |s| == 0 then []
    else
      var init := s[..|s| - 1];
      assert s == init + [s[|s| - 1]];
      Filter(init, keep) + (if keep(s[|s| - 1]) then [s[|s| - 1]] else [])
  }

  /** Filtering works element by element: filtering a concatenation is
      concatenating the filtered parts. Together with `FilterOne` this pins
      the result down as the subsequence of kept elements. */
  lemma {:induction false} FilterConcat<T>(a: seq<T>, b: seq<T>, keep: T -> bool)
    ensures Filter(a + b, keep) == Filter(a, keep) + Filter(b, keep)
    decreases |b|
  {
    if |b| == 0 {
      assert a + b == a;
    } else {
      var init := b[..|b| - 1];
      assert (a + b)[..|a + b| - 1] == a + init;
      FilterConcat(a, init, keep);
    }
  }

  /** Filtering one more element at the end. */
  lemma FilterSnoc<T>(s: seq<T>, x: T, keep: T -> bool)
    ensures Filter(s + [x], keep) == Filter(s, keep) + if keep(x) then [x] else []
  {
    assert (s + [x])[..|s|] == s;
  }

  /** An element survives exactly when it was there and is kept. */
  lemma {:induction false} FilterMembers<T>(s: seq<T>, keep: T -> bool, x: T)
    ensures x in Filter(s, keep) <==> x in s && keep(x)
    decreases |s|
  {
    if |s| > 0 {
      var init := s[..|s| - 1];
      assert s == init + [s[|s| - 1]];
      FilterMembers(init, keep, x);
    }
  }

  lemma FilterOne<T>(x: T, keep: T -> bool)
    ensures Filter([x], keep) == if keep(x) then [x] else []
  {
    assert [x][..0] == [];
  }

  /** Nothing to drop: the sequence comes back unchanged. */
  lemma {:induction false} FilterKeepsAll<T>(s: seq<T>, keep: T -> bool)
    requires forall i :: 0 <= i < |s| ==> keep(s[i])
    ensures Filter(s, keep) == s
    decreases |s|
  {
    if |s| > 0 {
      var init := s[..|s| - 1];
      assert s == init + [s[|s| - 1]];
      FilterKeepsAll(init, keep);
    }
  }

  lemma FilterIdempotent<T>(s: seq<T>, keep: T -> bool)
    ensures Filter(Filter(s, keep), keep) == Filter(s, keep)
  {
    FilterKeepsAll(Filter(s, keep), keep);
  }

  /** `before` holds between every earlier and every later element of `s`. */
  predicate Ordered<T>(s: seq<T>, before: (T, T) -> bool) {
    forall i, j :: 0 <= i < j < |s| ==> before(s[i], s[j])
  }

  /** Filtering keeps the relative order of what it keeps: a relation that
      holds between every earlier and later element of `s` still holds in
      the result. */
  lemma {:induction false} FilterKeepsOrder<T>(s: seq<T>, keep: T -> bool, before: (T, T) -> bool)
    requires Ordered(s, before)
    ensures Ordered(Filter(s, keep), before)
    decreases |s|
  {
    if |s| > 0 {
      var init := s[..|s| - 1];
      var last := s[|s| - 1];
      assert s == init + [last];
      FilterKeepsOrder(init, keep, before);
      var t0 := Filter(init, keep);
      forall i | 0 <= i < |t0|
        ensures before(t0[i], last)
      {
        var p :| 0 <= p < |init| && init[p] == t0[i];
        assert s[p] == init[p];
      }
      if keep(last) {
        var t := t0 + [last];
        assert Filter(s, keep) == t;
        forall i, j | 0 <= i < j < |t|
          ensures before(t[i], t[j])
        {
          if j == |t0| {
            assert t[i] == t0[i] && t[j] == last;
            assert before(t0[i], last);
          } else {
            assert t[i] == t0[i] && t[j] == t0[j];
            assert before(t0[i], t0[j]);
          }
        }
      } else {
        assert Filter(s, keep) == t0;
      }
    }
  }

  /** Dropping exactly one element at position `k`. */
  lemma {:induction false} FilterDropsOne<T>(s: seq<T>, keep: T -> bool, k: int)
    requires 0 <= k < |s| && !keep(s[k])
    requires forall i :: 0 <= i < |s| && i != k ==> keep(s[i])
    ensures Filter(s, keep) == s[..k] + s[k + 1..]
    decreases |s|
  {
    var init, last := s[..|s| - 1], s[|s| - 1];
    assert s == init + [last];
    FilterSnoc(init, last, keep);
    if k == |s| - 1 {
      assert forall i :: 0 <= i < |init| ==> init[i] == s[i];
      FilterKeepsAll(init, keep);
      assert s[k + 1..] == [];
    } else {
      FilterDropsOne(init, keep, k);
      assert init[..k] == s[..k];
      assert init[k + 1..] + [last] == s[k + 1..];
    }
  }
}

=== FILE: store.dfy ===
/**
 The record logic of the task store: the four commands `add`, `list`,
 `complete` and `delete`, each taken from the moment the task file has been
 decoded into records. `complete` and `delete` end with the records that
 replace the file's contents, `add` with the file's records after it has
 appended one, and `list` with the tasks it prints. `ReadBack` gives what the
 next command decodes from a file.

 A record is one decoded line of the file, `[id, description, created_at,
 is_complete]`, kept as the strings the decoder produced. IDs are compared
 through their canonical spelling `Itoa(Atoi(field))`.

 The functions state what each command computes; the methods `ListTasks`,
 `CompleteTask` and `DeleteTask` follow the loops of the program and are
 proved to compute the same thing.
 */
module TaskStore {
  import opened Wrappers
  import opened Strconv
  import opened Sequences

  /** One decoded line of the task file. */
  type Record = seq<string>

  /** Field positions within a record. */
  const IdField := 0
  const DescriptionField := 1
  const CreatedAtField := 2
  const DoneField := 3

  /** A command either produces its records or stops on an index-out-of-range
      panic, which is what Go does when a record has too few fields. */
  datatype Result<T> = Ok(value: T) | IndexOutOfRange

  /** A task as the `list` command reads it from a record. The creation time
      is kept as the stored text. */
  datatype Task = Task(id: int, description: string, createdAt: string, isComplete: bool)

  /** What the CSV decoder guarantees: every record has at least one field. */
  predicate Decoded(rs: seq<Record>) {
    forall r :: r in rs ==> |r| >= 1
  }

  /** Every record has all four fields. */
  predicate WellFormed(rs: seq<Record>) {
    forall r :: r in rs ==> |r| >= 4
  }

  /** The ID of a record as the program reads it: unparseable text is 0. */
  function IdOf(r: Record): int
    requires |r| >= 1
  {
    Atoi(r[IdField])
  }

  /** The record's ID spelled back out, which is what arguments are compared to. */
  function CanonicalId(r: Record): (s: string)
    requires |r| >= 1
    ensures Canonical(s)
  {
    Itoa(IdOf(r))
  }

  /** The spelled-out ID parses back to the record's ID. */
  lemma CanonicalIdParses(r: Record)
    requires |r| >= 1
    ensures Atoi(CanonicalId(r)) == IdOf(r)
  {
    ParseItoa(IdOf(r));
  }

  /** Does argument `taskId` select record `r`? Only a canonical spelling
      can (`MatchesIff` gives the exact condition). */
  function Matches(r: Record, taskId: string): (m: bool)
    requires |r| >= 1
    ensures m ==> Canonical(taskId)
  {
    CanonicalId(r) == taskId
  }

  /* ---------------------------------------------------------------------
     Reading the file back
     --------------------------------------------------------------------- */

  /** Every record has the first record's number of fields. */
  predicate SameFieldCount(rs: seq<Record>) {
    forall i :: 0 <= i < |rs| ==> |rs[i]| == |rs[0]|
  }

  /** Every record has exactly the four fields `add` writes. */
  predicate AsWritten(rs: seq<Record>) {
    forall i :: 0 <= i < |rs| ==> |rs[i]| == 4
  }

  /** What the next command reads from a file holding `rs`. Go's CSV reader
      takes the field count from the first record and rejects a file whose
      records differ from it; the program ignores that error and goes on with
      no records at all. */
  function ReadBack(rs: seq<Record>): (rs': seq<Record>)
    ensures SameFieldCount(rs')
    ensures rs' == rs <==> SameFieldCount(rs)
    ensures rs' != rs ==> rs' == []
  {
    if SameFieldCount(rs) then rs else []
  }

  /* ---------------------------------------------------------------------
     add
     --------------------------------------------------------------------- */

  /** The ID the next task gets: one more than the ID of the LAST record in
      file order, not of the largest one; 1 when there are no records. */
  function NextId(rs: seq<Record>): (id: int)
    requires Decoded(rs)
    ensures |rs| == 0 ==> id == 1
    ensures |rs| > 0 && !IntSyntax(rs[|rs| - 1][IdField]) ==> id == 1
    ensures |rs| > 0 && IntSyntax(rs[|rs| - 1][IdField]) ==> ParseInt(rs[|rs| - 1][IdField]) == Some(id - 1)
  {
    if |rs| > 0 then IdOf(rs[|rs| - 1]) + 1 else 1
  }

  /** The record `add` writes for a new task. */
  function NewRecord(id: int, description: string, createdAt: string): (r: Record)
    ensures |r| == 4
    ensures IdOf(r) == id && ParseInt(r[IdField]) == Some(id)
    ensures Canonical(r[IdField])
    ensures r[DescriptionField] == description && r[CreatedAtField] == createdAt
    ensures r[DoneField] == "false" && ParseBool(r[DoneField]) == Some(false)
  {
    ParseItoa(id);
    [Itoa(id), description, createdAt, FormatBool(false)]
  }

  /** `add`: one new, incomplete record at the end; nothing before it changes.
      `createdAt` is the formatted creation time, supplied by the caller. */
  function Add(rs: seq<Record>, description: string, createdAt: string): (rs': seq<Record>)
    requires Decoded(rs)
    ensures Decoded(rs')
    ensures |rs'| == |rs| + 1 && rs'[..|rs|] == rs
    ensures var r := rs'[|rs|];
      |r| == 4 && IdOf(r) == NextId(rs) && Canonical(r[IdField]) &&
      r[DescriptionField] == description && r[CreatedAtField] == createdAt &&
      r[DoneField] == "false" && !ParsesTrue(r[DoneField])
  {
    var rs' := rs + [NewRecord(NextId(rs), description, createdAt)];
    assert rs'[..|rs|] == rs;
    rs'
  }

  /** The file `add` leaves reads back in full exactly when every earlier
      record has four fields, like the one appended; otherwise the next
      command sees no records. */
  lemma AddReadBack(rs: seq<Record>, description: string, createdAt: string)
    requires Decoded(rs)
    ensures AsWritten(rs) ==> ReadBack(Add(rs, description, createdAt)) == Add(rs, description, createdAt)
    ensures !AsWritten(rs) ==> ReadBack(Add(rs, description, createdAt)) == []
  {
    var rs' := Add(rs, description, createdAt);
    assert forall i :: 0 <= i < |rs| ==> rs'[i] == rs[i];
    if !AsWritten(rs) {
      var i :| 0 <= i < |rs| && |rs[i]| != 4;
      assert |rs'[i]| != |rs'[|rs|]|;
    }
  }

  /* ---------------------------------------------------------------------
     list
     --------------------------------------------------------------------- */

  /** The task `list` reads from a record: the ID as `Atoi` reads it (0 when
      it does not parse), the text fields as stored, and complete exactly
      when the fourth field is one of `ParseBool`'s spellings of true. */
  function ToTask(r: Record): (t: Task)
    requires |r| >= 4
    ensures t.id == Atoi(r[IdField]) && (!IntSyntax(r[IdField]) ==> t.id == 0)
    ensures t.description == r[DescriptionField] && t.createdAt == r[CreatedAtField]
    ensures t.isComplete <==> r[DoneField] in TrueSpellings
  {
    Task(IdOf(r), r[DescriptionField], r[CreatedAtField], ParsesTrue(r[DoneField]))
  }

  /** Is the record printed by `list`? Completed tasks only with "show all". */
  function Visible(r: Record, showAll: bool): (v: bool)
    requires |r| >= 4
    ensures v <==> showAll || r[DoneField] !in TrueSpellings
    ensures v <==> showAll || !ToTask(r).isComplete
  {
    showAll || !ParsesTrue(r[DoneField])
  }

  /** Does `list` print record `r`? (Records too short to read are not
      printed; `List` panics on them before anything is filtered.) */
  function VisibleBy(showAll: bool): Record -> bool {
    r => |r| >= 4 && Visible(r, showAll)
  }

  /** The tasks read from a sequence of records, one each, in order. */
  function Tasks(rs: seq<Record>): (ts: seq<Task>)
    requires WellFormed(rs)
    ensures |ts| == |rs| && forall i :: 0 <= i < |rs| ==> ts[i] == ToTask(rs[i])
  {
    seq(|rs|, i requires 0 <= i < |rs| => assert rs[i] in rs; ToTask(rs[i]))
  }

  /** The tasks `list` prints, in file order. */
  function Shown(rs: seq<Record>, showAll: bool): (ts: seq<Task>)
    requires WellFormed(rs)
    ensures |ts| <= |rs|
    ensures showAll ==> |ts| == |rs| && forall i :: 0 <= i < |rs| ==> ts[i] == ToTask(rs[i])
    ensures forall i :: 0 <= i < |ts| ==> showAll || !ts[i].isComplete
  {
    var kept := Filter(rs, VisibleBy(showAll));
    assert showAll ==> kept == rs by {
      if showAll {
        assert forall i :: 0 <= i < |rs| ==> rs[i] in rs;
        FilterKeepsAll(rs, VisibleBy(showAll));
      }
    }
    Tasks(kept)
  }

  /** `list`: panics on the first record with fewer than four fields;
      otherwise the shown tasks. */
  function List(rs: seq<Record>, showAll: bool): (r: Result<seq<Task>>)
    ensures r.IndexOutOfRange? <==> exists i :: 0 <= i < |rs| && |rs[i]| < 4
    ensures r.Ok? ==> r.value == Shown(rs, showAll)
  {
    if WellFormed(rs) then Ok(Shown(rs, showAll))
    else IndexOutOfRange
  }

  /** The `list` loop as the program writes it. */
  method ListTasks(rs: seq<Record>, showAll: bool) returns (out: Result<seq<Task>>)
    ensures out == List(rs, showAll)
  {
    var shown: seq<Task> := [];
    for i := 0 to |rs|
      invariant WellFormed(rs[..i])
      invariant shown == Shown(rs[..i], showAll)
    {
      if |rs[i]| < 4 {
        return IndexOutOfRange;
      }
      var t := ToTask(rs[i]);
      assert Visible(rs[i], showAll) <==> showAll || !t.isComplete;
      assert rs[..i + 1] == rs[..i] + [rs[i]];
      ShownSnoc(rs[..i], rs[i], showAll);
      if !showAll && t.isComplete {
        continue;
      }
      shown := shown + [t];
    }
    assert rs[..|rs|] == rs;
    return Ok(shown);
  }

  /** One more record: its task is appended to what is shown when visible. */
  lemma ShownSnoc(rs: seq<Record>, r: Record, showAll: bool)
    requires WellFormed(rs) && |r| >= 4
    ensures WellFormed(rs + [r])
    ensures Shown(rs + [r], showAll)
      == Shown(rs, showAll) + if Visible(r, showAll) then [ToTask(r)] else []
  {
    FilterSnoc(rs, r, VisibleBy(showAll));
    var before := Filter(rs, VisibleBy(showAll));
    if Visible(r, showAll) {
      TasksSnoc(before, r);
    }
  }

  lemma TasksSnoc(rs: seq<Record>, r: Record)
    requires WellFormed(rs) && |r| >= 4
    ensures WellFormed(rs + [r])
    ensures Tasks(rs + [r]) == Tasks(rs) + [ToTask(r)]
  {
  }

  /* ---------------------------------------------------------------------
     complete
     --------------------------------------------------------------------- */

  /** Record `i` is the first one whose canonical ID is `taskId`. */
  predicate IsFirstMatch(rs: seq<Record>, taskId: string, i: int)
    requires Decoded(rs)
  {
    0 <= i < |rs| && Matches(rs[i], taskId) &&
    forall j :: 0 <= j < i ==> !Matches(rs[j], taskId)
  }

  /** The first record at or after `from` whose canonical ID is `taskId`. */
  function FirstMatchFrom(rs: seq<Record>, taskId: string, from: nat): (k: Option<nat>)
    requires Decoded(rs)
    ensures k.Some? ==>
      && from <= k.value < |rs|
      && Matches(rs[k.value], taskId)
      && forall j :: from <= j < k.value ==> !Matches(rs[j], taskId)
    ensures k.None? ==> forall j :: from <= j < |rs| ==> !Matches(rs[j], taskId)
    decreases |rs| - from
  {
    if from >= |rs| then None
    else if Matches(rs[from], taskId) then Some(from)
    else FirstMatchFrom(rs, taskId, from + 1)
  }

  /** `complete`: the first record whose canonical ID is `taskId` gets its
      fourth field set to "true"; every other record and field is kept.
      Panics when that record has fewer than four fields. */
  function Complete(rs: seq<Record>, taskId: string): (r: Result<seq<Record>>)
    requires Decoded(rs)
    ensures r.IndexOutOfRange? <==> exists i :: IsFirstMatch(rs, taskId, i) && |rs[i]| < 4
    ensures r.Ok? ==> |r.value| == |rs|
    ensures r.Ok? ==> forall i :: 0 <= i < |rs| && !IsFirstMatch(rs, taskId, i) ==> r.value[i] == rs[i]
    ensures r.Ok? ==> forall i :: IsFirstMatch(rs, taskId, i) ==>
      |r.value[i]| == |rs[i]| && r.value[i][DoneField] == "true" &&
      forall f :: 0 <= f < |rs[i]| && f != DoneField ==> r.value[i][f] == rs[i][f]
  {
    match FirstMatchFrom(rs, taskId, 0)
    case None => Ok(rs)
    case Some(k) =>
      assert IsFirstMatch(rs, taskId, k);
      assert forall i :: IsFirstMatch(rs, taskId, i) ==> i == k;
      if |rs[k]| < 4 then IndexOutOfRange
      else Ok(rs[k := rs[k][DoneField := "true"]])
  }

  /** Once the first match is known, `complete` marks exactly that record. */
  lemma CompleteAtFirstMatch(rs: seq<Record>, taskId: string, k: int)
    requires Decoded(rs) && IsFirstMatch(rs, taskId, k)
    ensures Complete(rs, taskId)
      == if |rs[k]| < 4 then IndexOutOfRange else Ok(rs[k := rs[k][DoneField := "true"]])
  {
    var m := FirstMatchFrom(rs, taskId, 0);
    assert m == Some(k);
  }

  /** The `complete` loop as the program writes it: scan, mark, stop. */
  method CompleteTask(rs: seq<Record>, taskId: string) returns (out: Result<seq<Record>>)
    requires Decoded(rs)
    ensures out == Complete(rs, taskId)
  {
    for i := 0 to |rs|
      invariant forall j :: 0 <= j < i ==> !Matches(rs[j], taskId)
    {
      if CanonicalId(rs[i]) == taskId {
        CompleteAtFirstMatch(rs, taskId, i);
        if |rs[i]| < 4 {
          return IndexOutOfRange;
        }
        return Ok(rs[i := rs[i][DoneField := "true"]]);
      }
    }
    return Ok(rs);
  }

  /* ---------------------------------------------------------------------
     delete
     --------------------------------------------------------------------- */

  /** Does `delete` keep record `r` when asked to delete `taskId`? */
  function KeptBy(taskId: string): Record -> bool {
    r => |r| >= 1 ==> !Matches(r, taskId)
  }

  /** `delete`: the records whose canonical ID is not `taskId`, in their
      original order (see `DeleteMembers` for exactly which survive). */
  function Delete(rs: seq<Record>, taskId: string): (rs': seq<Record>)
    requires Decoded(rs)
    ensures Decoded(rs') && |rs'| <= |rs|
  {
    Filter(rs, KeptBy(taskId))
  }

  /** A record survives `delete` if and only if it was there and does not
      match. */
  lemma DeleteMembers(rs: seq<Record>, taskId: string, r: Record)
    requires Decoded(rs)
    ensures r in Delete(rs, taskId) <==> r in rs && !Matches(r, taskId)
  {
    FilterMembers(rs, KeptBy(taskId), r);
  }

  /** The `delete` loop as the program writes it: copy every other record. */
  method DeleteTask(rs: seq<Record>, taskId: string) returns (updated: seq<Record>)
    requires Decoded(rs)
    ensures updated == Delete(rs, taskId)
  {
    updated := [];
    for i := 0 to |rs|
      invariant updated == Filter(rs[..i], KeptBy(taskId))
    {
      assert rs[..i + 1] == rs[..i] + [rs[i]];
      FilterSnoc(rs[..i], rs[i], KeptBy(taskId));
      if CanonicalId(rs[i]) != taskId {
        updated := updated + [rs[i]];
      }
    }
    assert rs[..|rs|] == rs;
  }
}

=== FILE: store_properties.dfy ===
/**
 Properties relating the task store's commands to each other and to the
 invariants of the task file: how IDs match, what `delete` keeps and in
 which order, that `complete` and `delete` are idempotent, and that the
 three mutating commands keep record IDs strictly increasing in file order,
 which makes IDs unique.
 */
module TaskStoreProperties {
  import opened Wrappers
  import opened Strconv
  import opened TaskStore
  import opened Sequences

  /* ---------------------------------------------------------------------
     Matching an argument against a record's ID
     --------------------------------------------------------------------- */

  /** An argument matches a record exactly when it is spelled the way `Itoa`
      spells numbers and denotes the record's (parsed) ID. */
  lemma MatchesIff(r: Record, taskId: string)
    requires |r| >= 1
    ensures Matches(r, taskId) <==> Canonical(taskId) && IdOf(r) == Atoi(taskId)
  {
    ParseItoa(IdOf(r));
    if Canonical(taskId) {
      AtoiCanonical(taskId);
    }
  }

  /** A stored ID written with a '+' or a leading zero answers to the same
      arguments as its bare digits. */
  lemma PaddedIdMatches(r: Record, d: string, taskId: string)
    requires |r| >= 1 && |d| >= 1 && AllDigits(d)
    requires r[IdField] == "+" + d || r[IdField] == "0" + d
    ensures Matches(r, taskId) <==> Matches(r[IdField := d], taskId)
  {
    AtoiPadding(d);
  }

  /** Stored IDs "+1", "007" and "x" answer to "1", "7" and "0". */
  lemma StoredSpellingsMatch()
    ensures Matches(["+1"], "1") && Matches(["007"], "7") && Matches(["x"], "0")
  {
    AtoiPadding("1");
    AtoiPadding("7");
    AtoiPadding("07");
    assert "+1" == "+" + "1" && "007" == "0" + "07" && "07" == "0" + "7";
    assert Atoi("1") == 1 && Atoi("7") == 7;
    assert !IntSyntax("x");
  }

  /** A record whose ID field does not parse is task 0: "0" selects it for
      `complete` and `delete`, and `list` still shows it, with ID 0. */
  lemma UnparseableIdIsZero(rs: seq<Record>, k: int)
    requires Decoded(rs) && 0 <= k < |rs| && !IntSyntax(rs[k][IdField])
    ensures IdOf(rs[k]) == 0 && Matches(rs[k], "0")
    ensures rs[k] !in Delete(rs, "0")
    ensures WellFormed(rs) ==> List(rs, true) == Ok(Shown(rs, true)) && Shown(rs, true)[k].id == 0
  {
    assert Itoa(0) == "0";
  }

  /** No record matches: `delete` writes the records back unchanged. */
  lemma DeleteNoMatch(rs: seq<Record>, taskId: string)
    requires Decoded(rs)
    requires forall r :: r in rs ==> !Matches(r, taskId)
    ensures Delete(rs, taskId) == rs
  {
    assert forall i :: 0 <= i < |rs| ==> rs[i] in rs;
    FilterKeepsAll(rs, KeptBy(taskId));
  }

  /** No record matches: `complete` writes the records back unchanged. */
  lemma CompleteNoMatch(rs: seq<Record>, taskId: string)
    requires Decoded(rs)
    requires forall r :: r in rs ==> !Matches(r, taskId)
    ensures Complete(rs, taskId) == Ok(rs)
  {
    assert forall i :: !IsFirstMatch(rs, taskId, i);
    var c := Complete(rs, taskId);
    assert c.Ok? && |c.value| == |rs|;
    assert forall i :: 0 <= i < |rs| ==> c.value[i] == rs[i];
  }

  /** An argument `Itoa` could not have produced — "01", "+1", "-0", "" or
      "abc" — matches no record, so `complete` and `delete` change nothing. */
  lemma NonCanonicalArgumentIsNoop(rs: seq<Record>, taskId: string)
    requires Decoded(rs) && !Canonical(taskId)
    ensures forall r :: r in rs ==> !Matches(r, taskId)
    ensures Complete(rs, taskId) == Ok(rs)
    ensures Delete(rs, taskId) == rs
  {
    DeleteNoMatch(rs, taskId);
    CompleteNoMatch(rs, taskId);
  }

  /** In particular an argument with a leading zero, such as "01". */
  lemma LeadingZeroArgumentIsNoop(rs: seq<Record>, taskId: string)
    requires Decoded(rs) && |taskId| >= 2 && taskId[0] == '0'
    ensures Complete(rs, taskId) == Ok(rs)
    ensures Delete(rs, taskId) == rs
  {
    NonCanonicalArgumentIsNoop(rs, taskId);
  }

  /* ---------------------------------------------------------------------
     delete
     --------------------------------------------------------------------- */

  /** `delete` works record by record: deleting from a concatenation is
      concatenating the deletions, and a single record is dropped exactly
      when it matches. So the kept records are the non-matching ones, in
      their original order. */
  lemma DeleteConcat(a: seq<Record>, b: seq<Record>, taskId: string)
    requires Decoded(a) && Decoded(b)
    ensures Decoded(a + b)
    ensures Delete(a + b, taskId) == Delete(a, taskId) + Delete(b, taskId)
  {
    FilterConcat(a, b, KeptBy(taskId));
  }

  lemma DeleteOne(r: Record, taskId: string)
    requires |r| >= 1
    ensures Delete([r], taskId) == if Matches(r, taskId) then [] else [r]
  {
    FilterOne(r, KeptBy(taskId));
  }

  /** Deleting twice with the same argument is deleting once. */
  lemma DeleteIdempotent(rs: seq<Record>, taskId: string)
    requires Decoded(rs)
    ensures Delete(Delete(rs, taskId), taskId) == Delete(rs, taskId)
  {
    FilterIdempotent(rs, KeptBy(taskId));
  }

  /* ---------------------------------------------------------------------
     complete
     --------------------------------------------------------------------- */

  /** `complete` leaves every ID field, and so every match, as it was. */
  lemma CompleteKeepsIds(rs: seq<Record>, taskId: string)
    requires Decoded(rs) && Complete(rs, taskId).Ok?
    ensures var rs' := Complete(rs, taskId).value;
      && Decoded(rs')
      && |rs'| == |rs|
      && (forall i :: 0 <= i < |rs| ==> |rs'[i]| == |rs[i]| && rs'[i][IdField] == rs[i][IdField])
      && (forall i :: IsFirstMatch(rs', taskId, i) <==> IsFirstMatch(rs, taskId, i))
  {
    var rs' := Complete(rs, taskId).value;
    assert forall i :: 0 <= i < |rs| ==> |rs'[i]| == |rs[i]| && rs'[i][IdField] == rs[i][IdField];
    assert forall i :: 0 <= i < |rs| ==> rs[i] in rs;
  }

  /** Completing twice with the same argument is completing once. */
  lemma CompleteIdempotent(rs: seq<Record>, taskId: string)
    requires Decoded(rs) && Complete(rs, taskId).Ok?
    ensures Decoded(Complete(rs, taskId).value)
    ensures Complete(Complete(rs, taskId).value, taskId) == Complete(rs, taskId)
  {
    var rs' := Complete(rs, taskId).value;
    CompleteKeepsIds(rs, taskId);
    var c := Complete(rs', taskId);
    assert c.Ok? by {
      forall i | IsFirstMatch(rs', taskId, i)
        ensures |rs'[i]| >= 4
      {
        assert IsFirstMatch(rs, taskId, i);
      }
    }
    assert |c.value| == |rs'|;
    forall i | 0 <= i < |rs'|
      ensures c.value[i] == rs'[i]
    {
      if IsFirstMatch(rs', taskId, i) {
        assert IsFirstMatch(rs, taskId, i);
        assert rs'[i][DoneField] == "true";
        assert |c.value[i]| == |rs'[i]|;
        assert forall f :: 0 <= f < |rs'[i]| ==> c.value[i][f] == rs'[i][f];
      }
    }
    assert c.value == rs';
  }

  /** The completed task drops out of the default listing. */
  lemma CompletedTaskIsHidden(rs: seq<Record>, taskId: string, k: int)
    requires Decoded(rs) && WellFormed(rs) && IsFirstMatch(rs, taskId, k)
    ensures Complete(rs, taskId).Ok?
    ensures var rs' := Complete(rs, taskId).value;
      WellFormed(rs') && ToTask(rs'[k]).isComplete && ToTask(rs'[k]) !in Shown(rs', false)
  {
    CompleteKeepsIds(rs, taskId);
    var rs' := Complete(rs, taskId).value;
    assert forall i :: 0 <= i < |rs'| ==> rs[i] in rs;
  }

  /* ---------------------------------------------------------------------
     add and list
     --------------------------------------------------------------------- */

  /** Two `add`s in a row give consecutive IDs, as long as the file read back
      after the first; when an earlier record does not have four fields, the
      second `add` reads no records and starts again at 1. */
  lemma NextIdAfterAdd(rs: seq<Record>, description: string, createdAt: string)
    requires Decoded(rs)
    ensures NextId(Add(rs, description, createdAt)) == NextId(rs) + 1
    ensures AsWritten(rs) ==> NextId(ReadBack(Add(rs, description, createdAt))) == NextId(rs) + 1
    ensures !AsWritten(rs) ==> NextId(ReadBack(Add(rs, description, createdAt))) == 1
  {
    AddReadBack(rs, description, createdAt);
  }

  /** The next ID depends on the last record only; what comes before it,
      however large its IDs, does not matter. */
  lemma NextIdLastRecordOnly(a: seq<Record>, b: seq<Record>, r: Record)
    requires Decoded(a) && Decoded(b) && |r| >= 1
    ensures Decoded(a + [r]) && Decoded(b + [r])
    ensures NextId(a + [r]) == NextId(b + [r]) == IdOf(r) + 1
  {
  }

  /** IDs 5 and then 2 in file order: the next task gets 3, not 6. */
  lemma NextIdFollowsLastNotLargest()
    ensures NextId([["5", "a", "", "false"], ["2", "b", "", "false"]]) == 3
  {
    assert DigitsValue("2") == 2;
  }

  /** `list` shows each record where it stands: listing a concatenation is
      concatenating the listings. */
  lemma ShownConcat(a: seq<Record>, b: seq<Record>, showAll: bool)
    requires WellFormed(a) && WellFormed(b)
    ensures WellFormed(a + b)
    ensures Shown(a + b, showAll) == Shown(a, showAll) + Shown(b, showAll)
  {
    FilterConcat(a, b, VisibleBy(showAll));
  }

  /** Every visible record's task is shown. */
  lemma ShownMembers(rs: seq<Record>, showAll: bool, r: Record)
    requires WellFormed(rs) && r in rs
    ensures Visible(r, showAll) ==> ToTask(r) in Shown(rs, showAll)
  {
    FilterMembers(rs, VisibleBy(showAll), r);
    var kept := Filter(rs, VisibleBy(showAll));
    if Visible(r, showAll) {
      var i :| 0 <= i < |kept| && kept[i] == r;
      assert Shown(rs, showAll)[i] == ToTask(r);
    }
  }

  /** A single record is shown exactly when it is visible. */
  lemma ShownOne(r: Record, showAll: bool)
    requires |r| >= 4
    ensures Shown([r], showAll) == if Visible(r, showAll) then [ToTask(r)] else []
  {
    FilterOne(r, VisibleBy(showAll));
  }

  /** Listing the records after `add` gives the earlier listing followed by
      the new task, with its ID and not done. */
  lemma ListAfterAdd(rs: seq<Record>, description: string, createdAt: string, showAll: bool)
    requires Decoded(rs) && List(rs, showAll).Ok?
    ensures List(Add(rs, description, createdAt), showAll)
      == Ok(List(rs, showAll).value + [Task(NextId(rs), description, createdAt, false)])
  {
    var rs' := Add(rs, description, createdAt);
    var r := rs'[|rs|];
    assert rs' == rs + [r];
    ShownOne(r, showAll);
    ShownConcat(rs, [r], showAll);
  }

  /** The next `list` that reads the file shows the added task last; unless
      an earlier record does not have four fields, in which case that `list`
      reads no records and prints nothing. */
  lemma AddedTaskIsListed(rs: seq<Record>, description: string, createdAt: string, showAll: bool)
    requires Decoded(rs) && List(rs, showAll).Ok?
    ensures AsWritten(rs) ==>
      (List(ReadBack(Add(rs, description, createdAt)), showAll)
       == Ok(List(rs, showAll).value + [Task(NextId(rs), description, createdAt, false)]))
    ensures !AsWritten(rs) ==> List(ReadBack(Add(rs, description, createdAt)), showAll) == Ok([])
  {
    AddReadBack(rs, description, createdAt);
    if AsWritten(rs) {
      ListAfterAdd(rs, description, createdAt, showAll);
    } else {
      assert Shown([], showAll) == [];
    }
  }

  /* ---------------------------------------------------------------------
     The ID invariant
     --------------------------------------------------------------------- */

  /** Record `a`'s ID is smaller than record `b`'s. */
  predicate IdBefore(a: Record, b: Record) {
    |a| >= 1 && |b| >= 1 && IdOf(a) < IdOf(b)
  }

  /** IDs strictly increase in file order. A store built by `add` alone has
      this shape, and every command keeps it. */
  predicate IdsIncreasing(rs: seq<Record>) {
    Decoded(rs) && Ordered(rs, IdBefore)
  }

  /** With increasing IDs, no two records answer to the same argument. */
  lemma AtMostOneMatch(rs: seq<Record>, taskId: string, i: int, j: int)
    requires IdsIncreasing(rs)
    requires 0 <= i < |rs| && Matches(rs[i], taskId)
    requires 0 <= j < |rs| && Matches(rs[j], taskId)
    ensures i == j
  {
    ItoaInjective(IdOf(rs[i]), IdOf(rs[j]));
  }

  /** With increasing IDs the next ID is larger than every stored one. */
  lemma NextIdIsFresh(rs: seq<Record>)
    requires IdsIncreasing(rs)
    ensures forall i :: 0 <= i < |rs| ==> IdOf(rs[i]) < NextId(rs)
  {
  }

  lemma AddKeepsIdsIncreasing(rs: seq<Record>, description: string, createdAt: string)
    requires IdsIncreasing(rs)
    ensures IdsIncreasing(Add(rs, description, createdAt))
  {
    var rs' := Add(rs, description, createdAt);
    assert forall i :: 0 <= i < |rs| ==> rs'[i] == rs[i];
    NextIdIsFresh(rs);
  }

  lemma DeleteKeepsIdsIncreasing(rs: seq<Record>, taskId: string)
    requires IdsIncreasing(rs)
    ensures IdsIncreasing(Delete(rs, taskId))
  {
    FilterKeepsOrder(rs, KeptBy(taskId), IdBefore);
  }

  /** Whenever `complete` does not panic, IDs stay strictly increasing. */
  lemma CompleteKeepsIdsIncreasing(rs: seq<Record>, taskId: string)
    requires IdsIncreasing(rs)
    ensures Complete(rs, taskId).Ok? ==> IdsIncreasing(Complete(rs, taskId).value)
  {
    if Complete(rs, taskId).Ok? {
      CompleteKeepsIds(rs, taskId);
    }
  }

  /** With increasing IDs, deleting an existing task removes exactly that
      record and keeps the others in order. */
  lemma DeleteRemovesExactlyOne(rs: seq<Record>, taskId: string, k: int)
    requires IdsIncreasing(rs) && 0 <= k < |rs| && Matches(rs[k], taskId)
    ensures Delete(rs, taskId) == rs[..k] + rs[k + 1..]
  {
    forall i | 0 <= i < |rs| && i != k
      ensures KeptBy(taskId)(rs[i])
    {
      if Matches(rs[i], taskId) {
        AtMostOneMatch(rs, taskId, i, k);
      }
    }
    FilterDropsOne(rs, KeptBy(taskId), k);
  }
}

=== FILE: strconv.dfy ===
/**
 The part of Go's `strconv` package the task store relies on: decimal `Atoi`
 and `Itoa` on unbounded integers, and `ParseBool` / `FormatBool`.

 The store compares a record's ID with a command-line argument through
 `Itoa(Atoi(field))`, so the lemmas here pin down exactly which strings that
 round trip can produce (`Canonical`) and that `Itoa` is injective.
 */
module Strconv {
  import opened Wrappers

  /* ---------------------------------------------------------------------
     Digits
     --------------------------------------------------------------------- */

  predicate IsDigit(c: char) {
    '0' <= c <= '9'
  }

  predicate AllDigits(s: string) {
    forall i :: 0 <= i < |s| ==> IsDigit(s[i])
  }

  function DigitValue(c: char): (d: nat)
    requires IsDigit(c)
    ensures d < 10
  {
    c as int - '0' as int
  }

  function DigitChar(d: nat): (c: char)
    requires d < 10
    ensures IsDigit(c) && DigitValue(c) == d
  {
    ('0' as int + d) as char
  }

  /** The value of a string of decimal digits, most significant first. */
  function DigitsValue(s: string): nat
    requires AllDigits(s)
  {
    if |s| == 0 then 0
    else DigitsValue(s[..|s| - 1]) * 10 + DigitValue(s[|s| - 1])
  }

  /** The shortest decimal spelling of `n`. */
  function Digits(n: nat): (s: string)
    ensures |s| >= 1 && AllDigits(s)
    ensures s[0] == '0' <==> n == 0
  {
    if n < 10 then [DigitChar(n)]
    else
      var p := Digits(n / 10);
      var s := p + [DigitChar(n % 10)];
      assert s[..|s| - 1] == p;
      s
  }

  /** `Digits` spells its argument: reading the digits back gives `n`. */
  lemma {:induction false} DigitsValueOfDigits(n: nat)
    ensures DigitsValue(Digits(n)) == n
    decreases n
  {
    if n >= 10 {
      var s := Digits(n);
      assert s[..|s| - 1] == Digits(n / 10);
      DigitsValueOfDigits(n / 10);
    }
  }

  /** A digit string without a superfluous leading zero. */
  predicate CanonicalDigits(d: string) {
    |d| >= 1 && AllDigits(d) && (d[0] == '0' ==> |d| == 1)
  }

  /* ---------------------------------------------------------------------
     Atoi / Itoa
     --------------------------------------------------------------------- */

  /** The shape `strconv.Atoi` accepts in base 10: an optional sign followed
      by at least one ASCII digit, and nothing else. */
  predicate IntSyntax(s: string) {
    |s| >= 1 &&
    if s[0] == '-' || s[0] == '+' then |s| >= 2 && AllDigits(s[1..])
    else AllDigits(s)
  }

  /** `strconv.Atoi` together with its error: `None` is the syntax error. */
  function ParseInt(s: string): (r: Option<int>)
    ensures r.Some? <==> IntSyntax(s)
    ensures r.Some? && s[0] == '-' ==> r.value <= 0
    ensures r.Some? && s[0] != '-' ==> r.value >= 0
  {
    if |s| == 0 then None
    else if s[0] == '-' || s[0] == '+' then
      if |s| >= 2 && AllDigits(s[1..]) then
        Some(if s[0] == '-' then 0 - DigitsValue(s[1..]) else DigitsValue(s[1..]))
      else None
    else if AllDigits(s) then Some(DigitsValue(s))
    else None
  }

  /** `n, _ := strconv.Atoi(s)`: the error is discarded, and a string that
      does not parse reads as 0. */
  function Atoi(s: string): (n: int)
    ensures !IntSyntax(s) ==> n == 0
    ensures IntSyntax(s) ==> ParseInt(s) == Some(n)
  {
    match ParseInt(s)
    case Some(v) => v
    case None => 0
  }

  /** `strconv.Itoa`: the shortest decimal spelling, with a '-' exactly for
      negative numbers. */
  function Itoa(n: int): (s: string)
    ensures Canonical(s)
    ensures s[0] == '-' <==> n < 0
  {
    if n < 0 then
      var d := Digits(-n);
      assert ("-" + d)[1..] == d;
      "-" + d
    else Digits(n)
  }

  /** Exactly the strings `Itoa` can produce (see `ItoaImage`). */
  predicate Canonical(s: string) {
    CanonicalDigits(s) ||
    (|s| >= 2 && s[0] == '-' && s[1] != '0' && CanonicalDigits(s[1..]))
  }

  /** Parsing a canonical digit string and printing it again gives it back. */
  lemma {:induction false} DigitsOfValue(d: string)
    requires CanonicalDigits(d)
    ensures Digits(DigitsValue(d)) == d
    decreases |d|
  {
    if |d| == 1 {
      assert d[..0] == [];
      assert d == [DigitChar(DigitValue(d[0]))];
    } else {
      var p := d[..|d| - 1];
      var c := DigitValue(d[|d| - 1]);
      assert p[0] == d[0];
      assert CanonicalDigits(p);
      DigitsValuePositive(p);
      var v := DigitsValue(p);
      assert DigitsValue(d) == v * 10 + c;
      assert (v * 10 + c) / 10 == v && (v * 10 + c) % 10 == c;
      DigitsOfValue(p);
      assert d == p + [DigitChar(c)];
    }
  }

  /** A digit string that does not start with '0' has a positive value. */
  lemma {:induction false} DigitsValuePositive(d: string)
    requires |d| >= 1 && AllDigits(d) && d[0] != '0'
    ensures DigitsValue(d) >= 1
    decreases |d|
  {
    if |d| > 1 {
      var p := d[..|d| - 1];
      assert p[0] == d[0];
      DigitsValuePositive(p);
    }
  }

  /** Round trip: `Atoi(Itoa(n)) == n`, without even an error. */
  lemma ParseItoa(n: int)
    ensures ParseInt(Itoa(n)) == Some(n)
    ensures Atoi(Itoa(n)) == n
  {
    var d := Digits(if n < 0 then -n else n);
    DigitsValueOfDigits(if n < 0 then -n else n);
    if n < 0 {
      assert Itoa(n)[1..] == d;
    }
  }

  /** `Itoa` never emits a leading zero, a "-0" or a '+': a named corollary
      of `Itoa`'s own contract. */
  lemma ItoaCanonical(n: int)
    ensures Canonical(Itoa(n))
  {
  }

  /** Round trip in the other direction, for canonical strings only. */
  lemma AtoiCanonical(s: string)
    requires Canonical(s)
    ensures ParseInt(s).Some?
    ensures Itoa(Atoi(s)) == s
  {
    if CanonicalDigits(s) {
      DigitsOfValue(s);
    } else {
      var d := s[1..];
      DigitsValuePositive(d);
      DigitsOfValue(d);
      assert s == "-" + d;
    }
  }

  /** `Itoa` produces a string if and only if it is canonical. */
  lemma ItoaImage(s: string)
    ensures (exists n :: Itoa(n) == s) <==> Canonical(s)
  {
    if Canonical(s) {
      AtoiCanonical(s);
    }
  }

  lemma ItoaInjective(a: int, b: int)
    ensures Itoa(a) == Itoa(b) <==> a == b
  {
    ParseItoa(a);
    ParseItoa(b);
  }

  /** A digit string with a leading zero, like "01", is never `Itoa`'s output. */
  lemma LeadingZeroNeverPrinted(s: string, n: int)
    requires |s| >= 2 && s[0] == '0'
    ensures Itoa(n) != s
  {
  }

  /** A leading zero adds nothing to the value of a digit string. */
  lemma {:induction false} DigitsValueLeadingZero(d: string)
    requires AllDigits(d)
    ensures AllDigits("0" + d) && DigitsValue("0" + d) == DigitsValue(d)
    decreases |d|
  {
    if |d| == 0 {
      assert ("0" + d)[..0] == [];
    } else {
      var p := d[..|d| - 1];
      assert ("0" + d)[..|d|] == "0" + p;
      DigitsValueLeadingZero(p);
    }
  }

  /** `Atoi` reads through a '+' and through leading zeros, and a '-' negates:
      "+7", "07" and "007" all read as 7, and "-07" as -7. */
  lemma AtoiPadding(d: string)
    requires |d| >= 1 && AllDigits(d)
    ensures Atoi("0" + d) == Atoi(d)
    ensures Atoi("+" + d) == Atoi(d)
    ensures Atoi("-" + d) == -Atoi(d)
  {
    DigitsValueLeadingZero(d);
    assert ("+" + d)[1..] == d;
    assert ("-" + d)[1..] == d;
  }

  /* ---------------------------------------------------------------------
     Booleans
     --------------------------------------------------------------------- */

  /** The spellings `strconv.ParseBool` accepts for true, and for false. */
  const TrueSpellings: set<string> := {"1", "t", "T", "TRUE", "true", "True"}
  const FalseSpellings: set<string> := {"0", "f", "F", "FALSE", "false", "False"}

  /** `strconv.ParseBool`: six spellings for each truth value, an error for
      everything else. */
  function ParseBool(s: string): (r: Option<bool>)
    ensures r == Some(true) <==> s in TrueSpellings
    ensures r == Some(false) <==> s in FalseSpellings
    ensures r.None? <==> s !in TrueSpellings && s !in FalseSpellings
  {
    if s in TrueSpellings then Some(true)
    else if s in FalseSpellings then Some(false)
    else None
  }

  /** `b, _ := strconv.ParseBool(s)`: a string that does not parse reads as false. */
  function ParsesTrue(s: string): (b: bool)
    ensures b <==> s in TrueSpellings
    ensures ParseBool(s).None? ==> !b
  {
    ParseBool(s) == Some(true)
  }

  /** `strconv.FormatBool`. */
  function FormatBool(b: bool): (s: string)
    ensures ParseBool(s) == Some(b)
  {
    if b then "true" else "false"
  }
}

=== FILE: wrappers.dfy ===
/** An optional value, shared by the parsers and the record searches. */
module Wrappers {

  datatype Option<T> = None | Some(value: T)
}
